=== FILE: README.md ===
# API Gateway to load balancer proxy, modelled in Dafny

The system is a single AWS Lambda handler (`handler` in
`modules/api_gateway/lambda_proxy.py`) that receives an API Gateway proxy event, forwards
it over plain HTTP to a backend load balancer whose DNS name comes from the `ALB_DNS_NAME`
environment variable, and turns the backend's reply (or the failure of the call) into the
response envelope API Gateway expects.

The model keeps the handler's translation logic and cuts out its I/O:

- the environment variable is an input `host: Option<string>`;
- the one outbound `urllib3` call is an input `BackendOutcome`:
  `Ok(status, headers, data)`, `Timeout` (urllib3's `TimeoutError`) or `Failed(message)`
  (any other exception, with its text);
- the handler is then the total function `LambdaProxy.Handle(host, event, outcome)`, which
  returns the request it sends (None when it sends none) and the response it returns.

Files and modules:

- `wrappers.dfy` (`Wrappers`): `Option`.
- `text.dfy` (`Text`): `startswith`, ASCII `lower`/`upper`, lowering through a Unicode
  case table, substring search, `join`/`split` on one separator character and cutting at the
  first separator, with their inverse laws.
- `base64.dfy` (`Base64`): the base 64 encoding of section 4 of RFC 4648 (Python's
  `base64.b64encode`) and a strict decoder; the two are proved mutually inverse.
- `request.dfy` (`ProxyRequest`): event defaults, the `/api` path rewrite, the unencoded query
  string, the target URL, the three forwarded headers, the method/body dispatch.
- `response.dfy` (`ProxyResponse`): the CORS header set, the error envelopes, the gateway
  headers for a backend reply, binary detection and the base 64 flag.
- `proxy.dfy` (`LambdaProxy`): the configuration guard and the whole handler.

Quirks of the code that the model keeps, each pinned by a lemma:

- the prefix cut is a fixed four characters: `/apiary` is forwarded as `ary`
  (`ProxyRequest.BackendPathIsFixedOffset`);
- query keys and values are not percent-encoded, so a value holding `&` reaches the backend
  as two parameters (`ProxyRequest.QueryValueWithAmpersandSplits`). For keys without `&`/`=`
  and values without `&`, a reader that splits at `&` and then at the first `=`, with no
  percent-decoding, recovers exactly what was sent (`ProxyRequest.QueryRoundTrip`). A real
  query decoder does more, so other characters do not reach the backend as sent either:
  `#` starts a URL fragment that is never transmitted (`q=a#b` arrives as `q=a`), `+` is
  decoded as a space, and a `%` not followed by two hex digits is a broken escape
  (`ProxyRequest.QueryValueIsNotEscaped` shows the unescaped URL);
- `dict(response.headers)` keeps the backend's own spelling of header names and the code
  looks up `content-type` and `content-length` exactly, so a backend that sends
  `Content-Type: image/png` gets `Content-Type: application/json` and an unencoded body
  (`ProxyResponse.BackendHeaderKeysAreCaseSensitive`). Backend header maps are therefore
  exact-key maps holding the names as the backend sent them.
- inbound header names are matched exactly as well (`headers.get('Content-Type', ...)` and
  `'Authorization' in headers`), so an event whose headers arrive as `content-type` or
  `authorization` sends the default Content-Type and no Authorization
  (`ProxyRequest.InboundHeaderKeysAreCaseSensitive`, and for every input the exact-key
  contract of `ProxyRequest.OutboundHeaders`);
- the method test is case-sensitive: only `GET` and `DELETE` drop the body, while `get` or
  `Delete` carries it (`ProxyRequest.MethodTestIsCaseSensitive`, and for every input the
  contract of `ProxyRequest.OutboundBody`).

## Model

| member | source | states |
|---|---|---|
| LambdaProxy.Handle | modules/api_gateway/lambda_proxy.py:6-132 | A request is sent exactly when the host is set and non-empty, and it is the one `BuildRequest` describes, to a URL starting with `http://` + host; otherwise the answer is the 500 `ALB_DNS_NAME not configured` envelope. With a usable host the answer is `OutcomeResponse` of the backend outcome, so a backend reply gets the gateway headers (backend `content-type`, `Content-Length` copy) and the binary test's flag. Every answer carries the CORS set and a Content-Type, and has the base 64 flag exactly when it is a backend reply. A backend reply keeps its status and its body agrees with the flag; a timeout is 504 `Request timeout`; any other failure is 500 `Internal server error: ` + its text. |
| LambdaProxy.UnconfiguredIgnoresInputs | modules/api_gateway/lambda_proxy.py:12-23 | With the host unset or empty, no request is sent and the 500 answer is the same whatever the event and the backend outcome. |
| LambdaProxy.RequestIndependentOfOutcome | modules/api_gateway/lambda_proxy.py:25-77 | The outbound request is determined by the host and the event alone. |
| LambdaProxy.BinaryReplyRoundTrips | modules/api_gateway/lambda_proxy.py:94-108 | For a backend reply, `isBase64Encoded` is true exactly for a binary content type; then the body is the base 64 text of the backend bytes and decodes back to them; otherwise the body is the backend bytes unchanged. |
| LambdaProxy.HandleExample | modules/api_gateway/lambda_proxy.py:33-56 | GET `/api/users` with `id=5` against `backend.local` sends GET `http://backend.local/users?id=5` with the two default headers and no body. |
| ProxyRequest.BackendPath | modules/api_gateway/lambda_proxy.py:33-38 | A path starting with `/api` is forwarded as the text after those four characters (`/api` + result = path); any other path is forwarded unchanged. |
| ProxyRequest.BackendPathKeepsSlash | modules/api_gateway/lambda_proxy.py:33-34 | Under `/api/` the forwarded path is `/` followed by the rest. |
| ProxyRequest.BackendPathIsFixedOffset | modules/api_gateway/lambda_proxy.py:35-38 | The cut ignores segment boundaries: `/apiary` becomes `ary`, `/api` becomes empty, `/ap` is kept. |
| ProxyRequest.QueryString | modules/api_gateway/lambda_proxy.py:44-46 | The query string is empty exactly when there are no parameters. |
| ProxyRequest.QueryRoundTrip | modules/api_gateway/lambda_proxy.py:44-46 | Splitting the query string at `&` and each piece at its first `=` gives back the parameters, in order, when no key holds `&` or `=` and no value holds `&`. The reader does no percent-decoding and no fragment handling. |
| ProxyRequest.QueryValueWithAmpersandSplits | modules/api_gateway/lambda_proxy.py:45 | Keys and values are copied verbatim: the parameter `q` = `a&b=c` is sent as `q=a&b=c` and read back as two parameters. |
| ProxyRequest.QueryValueIsNotEscaped | modules/api_gateway/lambda_proxy.py:41-46 | `#`, `+` and `%` in a value are copied into the URL unescaped: `q` = `a#b` gives `http://h/p?q=a#b`, and `a+b` and `100%` are sent as written. |
| ProxyRequest.TargetUrl | modules/api_gateway/lambda_proxy.py:41 | The URL begins with `http://` + host + forwarded path. |
| ProxyRequest.TargetUrlParts | modules/api_gateway/lambda_proxy.py:41-46 | Cutting the URL at its first `?` gives `http://` + host + path before it, and after it the query string exactly when there are parameters (no `?` at all otherwise). |
| ProxyRequest.OutboundHeaders | modules/api_gateway/lambda_proxy.py:49-56 | Outbound headers are Content-Type (inbound value, else `application/json`), User-Agent (inbound value, else `API-Gateway-Proxy`), and Authorization exactly when it is inbound, with the same value; no other key. |
| ProxyRequest.InboundHeaderKeysAreCaseSensitive | modules/api_gateway/lambda_proxy.py:49-56 | Inbound `content-type: text/plain` and `authorization` in lower case are not seen: the backend gets `Content-Type: application/json`, the default User-Agent and no Authorization. |
| ProxyRequest.OutboundHeadersIgnoreOthers | modules/api_gateway/lambda_proxy.py:49-56 | Adding, changing or removing any inbound header other than the three changes nothing outbound. |
| ProxyRequest.OutboundBody | modules/api_gateway/lambda_proxy.py:63-77 | GET and DELETE send no body whatever the event holds; every other method sends the inbound body unchanged. |
| ProxyRequest.MethodTestIsCaseSensitive | modules/api_gateway/lambda_proxy.py:63 | `get` and `Delete` are not in `['GET', 'DELETE']`, so they carry the body; `GET` does not. |
| ProxyRequest.BuildRequest | modules/api_gateway/lambda_proxy.py:25-77 | The request uses the event's method (default GET), the rewritten URL, exactly the headers `OutboundHeaders` selects from the event's headers, the body by the dispatch rule with the event's body (default empty, null sends none), and a 30-second timeout. |
| ProxyRequest.BuildRequestExample | modules/api_gateway/lambda_proxy.py:26-56 | The same GET `/api/users?id=5` example at the level of request building. |
| ProxyResponse.ErrorResponse | modules/api_gateway/lambda_proxy.py:111-132 | An error envelope has the given status, body `{"error": message}`, exactly the three CORS entries plus `Content-Type: application/json`, and no `isBase64Encoded` key. |
| ProxyResponse.GatewayHeaders | modules/api_gateway/lambda_proxy.py:83-92 | Gateway headers are the three CORS entries, Content-Type (backend `content-type`, else `application/json`), and Content-Length exactly when the backend sent `content-length`, with its value; nothing else. |
| ProxyResponse.IsBinaryContentType | modules/api_gateway/lambda_proxy.py:99-100 | Binary exactly when `image/`, `application/pdf` or `application/octet-stream` occurs at some position of the lowercased content type. |
| ProxyResponse.BinaryTestUnderUnicodeLower | modules/api_gateway/lambda_proxy.py:99-100 | For any lowering table shaped like Python's `str.lower()`, searching its output for the three markers gives the same answer as the model's binary test. |
| ProxyResponse.MarkerMakesBinary | modules/api_gateway/lambda_proxy.py:99-100 | Any of the three markers, in lower or upper case, anywhere in the content type makes it binary. |
| ProxyResponse.JsonIsNotBinary | modules/api_gateway/lambda_proxy.py:99-100 | `application/json` is not binary. |
| ProxyResponse.SuccessResponse | modules/api_gateway/lambda_proxy.py:94-109 | A backend reply keeps its status, gets the gateway headers, has `isBase64Encoded` equal to the binary test on the backend `content-type` (empty when absent), and its body agrees with the flag. |
| ProxyResponse.BackendHeaderKeysAreCaseSensitive | modules/api_gateway/lambda_proxy.py:80-84 | A backend `Content-Type: image/png` (capitalised key) is not seen: the answer says `application/json` and is not encoded, while `content-type: image/png` is encoded. |
| ProxyResponse.OutcomeResponse | modules/api_gateway/lambda_proxy.py:104-132 | A backend reply becomes `SuccessResponse` of its status, headers and bytes (status kept, gateway headers, encoded exactly when binary); a timeout the 504 `Request timeout` envelope; any other failure the 500 envelope with `Internal server error: ` + its text. |
| Base64.Encode | modules/api_gateway/lambda_proxy.py:101 | The encoding has 4 characters per started group of 3 bytes, each from the RFC 4648 alphabet except for `=` padding, which only occurs in the last two positions. |
| Base64.Rfc4648Vectors | modules/api_gateway/lambda_proxy.py:101 | The encoder gives the section 10 test vectors of RFC 4648: `f` is `Zg==`, `fo` is `Zm8=`, `foo` is `Zm9v`. |
| Text.Contains | modules/api_gateway/lambda_proxy.py:100 | The substring test `t in s` holds exactly when `t` occurs in `s` at some position. |
| Text.Lower | modules/api_gateway/lambda_proxy.py:99 | Lowercasing keeps the length and maps each character through ASCII lowercasing. |
| Text.ContainsUnicodeLower | modules/api_gateway/lambda_proxy.py:99-100 | For a non-empty ASCII pattern with no `k` that does not end in `i`, the pattern occurs in the Unicode-lowered text exactly when it occurs in the ASCII-lowered text. The Unicode table only needs to send ASCII to its ASCII lower case, give every character at least one character, and give ASCII only for U+0130 (`i` + U+0307) and U+212A (`k`). |
| Base64.DecodeEncode | modules/api_gateway/lambda_proxy.py:101 | Decoding the encoding of any bytes gives those bytes back. |
| Base64.EncodeDecode | modules/api_gateway/lambda_proxy.py:101 | Any text the strict decoder accepts is the encoding of what it decodes to, so the encoded body and the bytes determine each other. |

## Left out

- The `urllib3.PoolManager` request itself, connection handling and the mechanics of the
  30-second timeout: network I/O, replaced by the `BackendOutcome` input. Which errors urllib3
  reports as a `TimeoutError` (rather than, say, a retry error after repeated timeouts) is
  decided there and not modelled; the model only maps the two classes of outcome.
- Reading `ALB_DNS_NAME` from `os.environ`: an `Option<string>` input.
- ProxyRequest.QueryRoundTrip: stated for a reader that splits at `&` and the first `=`
  without decoding. A real backend also percent-decodes, reads `+` as a space and never
  receives the URL fragment. Keys or values holding `#`, `+` or `%` therefore do not reach it
  as sent, and urllib3's URL parsing and the backend's decoder are not modelled.
- `json.dumps` of the error bodies: the body is the structured value `ErrorJson(message)`.
- `str(e)` of an arbitrary exception: an opaque string inside `Failed`.
- urllib3's `HTTPHeaderDict` behaviour (joining repeated headers): the backend headers arrive
  as one exact-key map.
- Text.Lower: lowercases ASCII letters only, while Python's `str.lower()` at line 99 also maps
  non-ASCII characters and can change the length (U+0130 becomes two characters). The result
  is only searched for the three markers, so this does not change the answer.
  `ProxyResponse.BinaryTestUnderUnicodeLower` proves that for any per-character table of
  Python's shape. Only two non-ASCII characters have a lower case containing ASCII: U+212A
  gives `k`, which no marker contains, and U+0130 gives `i` followed by U+0307, and no marker
  ends in `i`. The table itself, and the context-dependent final-sigma rule, are not modelled.
  That rule only chooses between two non-ASCII letters.
- A present but null `httpMethod` or `path`: the event fields hold strings when present. A
  null `path` makes the code raise outside its `try`, which the model does not represent.
- The non-binary success body is the backend's bytes as the code returns them; what the
  Lambda runtime does when serialising bytes is outside the handler.

=== FILE: base64.dfy ===
/** The base 64 encoding of section 4 of RFC 4648 (alphabet `A-Z a-z 0-9 + /`, `=` padding),
    which is what Python's `base64.b64encode` produces, together with a strict decoder that
    accepts exactly the canonical encodings. */
module Base64 {

  import opened Wrappers

  /** An octet of the backend's response body. */
  type byte = x: int | 0 <= x < 256

  /** A 6-bit group, the value one output character carries. */
  type sextet = x: int | 0 <= x < 64

  const Pad: char := '='

  /** The character for value `v` in the base 64 alphabet (Table 1 of RFC 4648). */
  function CharOf(v: sextet): char
  {
    if v < 26 then ('A' as int + v) as char
    else if v < 52 then ('a' as int + (v - 26)) as char
    else if v < 62 then ('0' as int + (v - 52)) as char
    else if v == 62 then '+'
    else '/'
  }

  /** The value of an alphabet character, None for any other character (padding included). */
  function ValueOf(c: char): (r: Option<sextet>)
    ensures r.Some? ==> CharOf(r.value) == c
  {
    if 'A' <= c <= 'Z' then Some(c as int - 'A' as int)
    else if 'a' <= c <= 'z' then Some(c as int - 'a' as int + 26)
    else if '0' <= c <= '9' then Some(c as int - '0' as int + 52)
    else if c == '+' then Some(62)
    else if c == '/' then Some(63)
    else None
  }

  /** Every alphabet character is recognised back as its own value. */
  lemma ValueOfCharOf(v: sextet)
    ensures ValueOf(CharOf(v)) == Some(v)
  {
  }

  predicate IsAlphabetChar(c: char) {
    ValueOf(c).Some?
  }

  /** Three octets as four characters. */
  function EncodeBlock(b0: byte, b1: byte, b2: byte): string
  {
    [CharOf(b0 / 4), CharOf((b0 % 4) * 16 + b1 / 16), CharOf((b1 % 16) * 4 + b2 / 64), CharOf(b2 % 64)]
  }

  /** A final single octet: two characters and two pad characters. */
  function EncodeTail1(b0: byte): string
  {
    [CharOf(b0 / 4), CharOf((b0 % 4) * 16), Pad, Pad]
  }

  /** A final pair of octets: three characters and one pad character. */
  function EncodeTail2(b0: byte, b1: byte): string
  {
    [CharOf(b0 / 4), CharOf((b0 % 4) * 16 + b1 / 16), CharOf((b1 % 16) * 4), Pad]
  }

  /** `base64.b64encode(data).decode('utf-8')`. The output is four characters for every
      started group of three octets, each an alphabet character except for trailing padding. */
  function Encode(data: seq<byte>): (s: string)
    ensures |s| == 4 * ((|data| + 2) / 3)
    ensures forall i :: 0 <= i < |s| ==> IsAlphabetChar(s[i]) || (s[i] == Pad && i >= |s| - 2)
    decreases |data|
  {
    if |data| == 0 then ""
    else if |data| == 1 then EncodeTail1(data[0])
    else if |data| == 2 then EncodeTail2(data[0], data[1])
    else EncodeBlock(data[0], data[1], data[2]) + Encode(data[3..])
  }

  /** Four alphabet characters as three octets. */
  function DecodeBlock(q: string): Option<seq<byte>>
    requires |q| == 4
  {
    match (ValueOf(q[0]), ValueOf(q[1]), ValueOf(q[2]), ValueOf(q[3]))
    case (Some(c0), Some(c1), Some(c2), Some(c3)) =>
      Some([(c0 as int) * 4 + c1 / 16, (c1 as int % 16) * 16 + c2 / 4, (c2 as int % 4) * 64 + c3])
    case _ => None
  }

  /** The last quadruple, which may carry one or two pad characters. Bits that padding
      discards must be zero, so only canonical encodings are accepted. */
  function DecodeLast(q: string): Option<seq<byte>>
    requires |q| == 4
  {
    if q[3] != Pad then DecodeBlock(q)
    else if q[2] == Pad then
      match (ValueOf(q[0]), ValueOf(q[1]))
      case (Some(c0), Some(c1)) =>
        if c1 % 16 == 0 then Some([(c0 as int) * 4 + c1 / 16]) else None
      case _ => None
    else
      match (ValueOf(q[0]), ValueOf(q[1]), ValueOf(q[2]))
      case (Some(c0), Some(c1), Some(c2)) =>
        if c2 % 4 == 0 then Some([(c0 as int) * 4 + c1 / 16, (c1 as int % 16) * 16 + c2 / 4]) else None
      case _ => None
  }

  /** Strict decoder: None unless `s` is the canonical encoding of some octets. A decoded
      result always has the length the encoder would give it. */
  function Decode(s: string): (r: Option<seq<byte>>)
    ensures r.Some? ==> |s| == 4 * ((|r.value| + 2) / 3)
    decreases |s|
  {
    if |s| == 0 then Some([])
    else if |s| < 4 then None
    else if |s| == 4 then DecodeLast(s)
    else
      match DecodeBlock(s[..4])
      case None => None
      case Some(head) =>
        match Decode(s[4..])
        case None => None
        case Some(tail) => Some(head + tail)
  }

  /** Decoding recovers every octet sequence from its encoding. */
  lemma {:induction false} DecodeEncode(data: seq<byte>)
    ensures Decode(Encode(data)) == Some(data)
    decreases |data|
  {
    if |data| == 1 {
      Tail1RoundTrip(data[0]);
      assert [data[0]] == data;
    } else if |data| == 2 {
      Tail2RoundTrip(data[0], data[1]);
      assert [data[0], data[1]] == data;
    } else if |data| >= 3 {
      var b0, b1, b2 := data[0], data[1], data[2];
      var s := Encode(data);
      BlockRoundTrip(b0, b1, b2);
      assert [b0, b1, b2] + data[3..] == data;
      if |data| == 3 {
        assert [b0, b1, b2] == data;
        assert s == EncodeBlock(b0, b1, b2);
        assert ValueOf(s[3]).Some?;
        assert Decode(s) == DecodeBlock(s);
      } else {
        DecodeEncode(data[3..]);
        assert s[..4] == EncodeBlock(b0, b1, b2);
        assert s[4..] == Encode(data[3..]);
      }
    }
  }

  /** Every string the decoder accepts is the encoding of what it decodes to. */
  lemma {:induction false} EncodeDecode(s: string)
    requires Decode(s).Some?
    ensures Encode(Decode(s).value) == s
    decreases |s|
  {
    if |s| == 4 {
      LastCanonical(s);
    } else if |s| > 4 {
      var head := DecodeBlock(s[..4]).value;
      var tail := Decode(s[4..]).value;
      BlockCanonical(s[..4]);
      EncodeDecode(s[4..]);
      var d := head + tail;
      assert d[3..] == tail;
      assert Encode(d) == EncodeBlock(head[0], head[1], head[2]) + Encode(tail);
      assert s[..4] + s[4..] == s;
    }
  }

  /** A final single octet decodes back from its padded quadruple. */
  lemma Tail1RoundTrip(b0: byte)
    ensures DecodeLast(EncodeTail1(b0)) == Some([b0])
  {
  }

  /** A final pair of octets decodes back from its padded quadruple. */
  lemma Tail2RoundTrip(b0: byte, b1: byte)
    ensures DecodeLast(EncodeTail2(b0, b1)) == Some([b0, b1])
  {
    ValueOfCharOf(b0 / 4);
    ValueOfCharOf((b0 % 4) * 16 + b1 / 16);
    ValueOfCharOf((b1 % 16) * 4);
  }

  /** A last quadruple the decoder accepts is re-encoded to the same characters. */
  lemma LastCanonical(q: string)
    requires |q| == 4 && DecodeLast(q).Some?
    ensures Encode(DecodeLast(q).value) == q
  {
    if q[3] != Pad {
      BlockCanonical(q);
      var d := DecodeBlock(q).value;
      assert Encode(d) == EncodeBlock(d[0], d[1], d[2]) + Encode(d[3..]);
    } else if q[2] == Pad {
      Tail1Canonical(q);
    } else {
      Tail2Canonical(q);
    }
  }

  /** A quadruple with two pad characters, once accepted, is re-encoded unchanged. */
  lemma Tail1Canonical(q: string)
    requires |q| == 4 && q[2] == Pad && q[3] == Pad && DecodeLast(q).Some?
    ensures Encode(DecodeLast(q).value) == q
  {
    var c0, c1 := ValueOf(q[0]).value, ValueOf(q[1]).value;
    var b0 := (c0 as int) * 4 + c1 / 16;
    assert DecodeLast(q).value == [b0];
    assert b0 / 4 == c0 && (b0 % 4) * 16 == c1;
    assert Encode([b0]) == EncodeTail1(b0);
  }

  /** A quadruple with one pad character, once accepted, is re-encoded unchanged. */
  lemma Tail2Canonical(q: string)
    requires |q| == 4 && q[2] != Pad && q[3] == Pad && DecodeLast(q).Some?
    ensures Encode(DecodeLast(q).value) == q
  {
    var c0, c1, c2 := ValueOf(q[0]).value, ValueOf(q[1]).value, ValueOf(q[2]).value;
    var b0, b1 := (c0 as int) * 4 + c1 / 16, (c1 as int % 16) * 16 + c2 / 4;
    assert DecodeLast(q).value == [b0, b1];
    assert b0 / 4 == c0;
    assert (b0 % 4) * 16 + b1 / 16 == c1;
    assert (b1 % 16) * 4 == c2;
    assert Encode([b0, b1]) == EncodeTail2(b0, b1);
  }

  /** A full block decodes back to its three octets. */
  lemma BlockRoundTrip(b0: byte, b1: byte, b2: byte)
    ensures DecodeBlock(EncodeBlock(b0, b1, b2)) == Some([b0, b1, b2])
  {
    var c0, c1, c2, c3 := b0 / 4, (b0 % 4) * 16 + b1 / 16, (b1 % 16) * 4 + b2 / 64, b2 % 64;
    ValueOfCharOf(c0);
    ValueOfCharOf(c1);
    ValueOfCharOf(c2);
    ValueOfCharOf(c3);
    assert c0 * 4 + c1 / 16 == b0;
    assert (c1 % 16) * 16 + c2 / 4 == b1;
    assert (c2 % 4) * 64 + c3 == b2;
  }

  /** A block the decoder accepts is re-encoded to the same four characters. */
  lemma BlockCanonical(q: string)
    requires |q| == 4 && DecodeBlock(q).Some?
    ensures |DecodeBlock(q).value| == 3
    ensures EncodeBlock(DecodeBlock(q).value[0], DecodeBlock(q).value[1], DecodeBlock(q).value[2]) == q
  {
    var c0, c1, c2, c3 := ValueOf(q[0]).value, ValueOf(q[1]).value, ValueOf(q[2]).value, ValueOf(q[3]).value;
    var b0, b1, b2 := (c0 as int) * 4 + c1 / 16, (c1 as int % 16) * 16 + c2 / 4, (c2 as int % 4) * 64 + c3;
    assert b0 / 4 == c0 && (b0 % 4) * 16 + b1 / 16 == c1;
    assert (b1 % 16) * 4 + b2 / 64 == c2 && b2 % 64 == c3;
  }

  /** The test vectors of section 10 of RFC 4648 for "f", "fo" and "foo". */
  lemma Rfc4648Vectors()
    ensures Encode([102]) == "Zg=="
    ensures Encode([102, 111]) == "Zm8="
    ensures Encode([102, 111, 111]) == "Zm9v"
  {
    assert CharOf(25) == 'Z' && CharOf(32) == 'g' && CharOf(38) == 'm';
    assert CharOf(60) == '8' && CharOf(61) == '9' && CharOf(47) == 'v';
    assert Encode([102]) == EncodeTail1(102);
    assert Encode([102, 111]) == EncodeTail2(102, 111);
    var foo: seq<byte> := [102, 111, 111];
    assert foo[3..] == [];
    assert Encode(foo) == EncodeBlock(102, 111, 111) + Encode([]);
  }
}

=== FILE: proxy.dfy ===
/** The Lambda handler that forwards an API Gateway request to the backend load balancer.
    The environment variable holding the backend host and the outcome of the one outbound
    HTTP call are inputs; the handler itself is a total function of them and the event. */
module LambdaProxy {

  import opened Wrappers
  import opened Text
  import opened ProxyRequest
  import opened ProxyResponse

  /** One invocation: the request sent to the backend (None when none is sent) and the
      response returned to the gateway. */
  datatype Invocation = Invocation(request: Option<OutboundRequest>, response: Response)

  /** The backend host is usable: set and not empty (Python's `if not alb_dns_name`). */
  predicate Configured(host: Option<string>) {
    host.Some? && host.value != ""
  }

  /** The response shape every path through the handler produces: the CORS entries, a
      Content-Type, and a flag present exactly on backend replies. Error envelopes are JSON. */
  predicate WellFormed(r: Response) {
    && HasCors(r.headers)
    && "Content-Type" in r.headers
    && (r.isBase64Encoded.None? <==> r.body.ErrorJson?)
    && (r.body.ErrorJson? ==> r.headers["Content-Type"] == JsonContentType)
  }

  /** `handler(event, context)` with `ALB_DNS_NAME` = `host`; `outcome` is what the backend
      call produced, used only when a call is made. */
  function Handle(host: Option<string>, event: Event, outcome: BackendOutcome): (inv: Invocation)
    ensures inv.request.Some? <==> Configured(host)
    ensures !Configured(host) ==> inv.response == ErrorResponse(500, ConfigErrorMessage)
    ensures inv.request.Some? ==> inv.request.value == BuildRequest(host.value, event)
    ensures inv.request.Some? ==> StartsWith(inv.request.value.url, "http://" + host.value)
    ensures Configured(host) ==> inv.response == OutcomeResponse(outcome)
    ensures WellFormed(inv.response)
    ensures Configured(host) && outcome.Ok? ==>
      inv.response.statusCode == outcome.status && BodyCarries(inv.response, outcome.data)
    ensures Configured(host) && outcome.Timeout? ==>
      inv.response.statusCode == 504 && inv.response.body == ErrorJson(TimeoutMessage)
    ensures Configured(host) && outcome.Failed? ==>
      inv.response.statusCode == 500 && inv.response.body == ErrorJson(InternalErrorPrefix + outcome.message)
  {
    if !Configured(host) then
      Invocation(None, ErrorResponse(500, ConfigErrorMessage))
    else
      var request := BuildRequest(host.value, event);
      assert StartsWith(request.url, "http://" + host.value) by {
        var base := "http://" + host.value + BackendPath(PathOf(event));
        assert request.url[..|base|] == base;
        assert base[..|"http://" + host.value|] == "http://" + host.value;
      }
      Invocation(Some(request), OutcomeResponse(outcome))
  }

  /** Without a usable host nothing is sent, and the answer depends on neither the event nor
      the outcome. */
  lemma UnconfiguredIgnoresInputs(host: Option<string>, e1: Event, e2: Event, o1: BackendOutcome, o2: BackendOutcome)
    requires !Configured(host)
    ensures Handle(host, e1, o1) == Handle(host, e2, o2)
    ensures Handle(host, e1, o1).request.None?
    ensures Handle(host, e1, o1).response.statusCode == 500
  {
  }

  /** The request sent depends only on the host and the event, never on what comes back. */
  lemma RequestIndependentOfOutcome(host: Option<string>, e: Event, o1: BackendOutcome, o2: BackendOutcome)
    ensures Handle(host, e, o1).request == Handle(host, e, o2).request
  {
  }

  /** A binary backend reply reaches the gateway base 64 encoded, and the gateway can recover
      the exact bytes; any other reply is passed through as the same bytes. */
  lemma BinaryReplyRoundTrips(host: string, e: Event, status: int, headers: map<string, string>, data: seq<Base64.byte>)
    requires host != ""
    ensures var r := Handle(Some(host), e, Ok(status, headers, data)).response;
      && (r.isBase64Encoded == Some(true) <==> IsBinaryContentType(ContentTypeOf(headers)))
      && (r.isBase64Encoded == Some(true) ==> r.body == Encoded(Base64.Encode(data)) && Base64.Decode(r.body.text) == Some(data))
      && (r.isBase64Encoded == Some(false) ==> r.body == Raw(data))
  {
  }

  /** A GET on /api/users?id=5 against backend.local. */
  lemma HandleExample(outcome: BackendOutcome)
    ensures Handle(Some("backend.local"), Event(Some("GET"), Some("/api/users"), Some([("id", "5")]), None, Null), outcome).request
      == Some(OutboundRequest(
           "GET", "http://backend.local/users?id=5",
           map["Content-Type" := "application/json", "User-Agent" := "API-Gateway-Proxy"],
           None, 30))
  {
    BuildRequestExample();
  }
}

=== FILE: request.dfy ===
/** The inbound half of the proxy: from the gateway's invocation event and the configured
    backend host to the one outbound HTTP request the handler issues. */
module ProxyRequest {

  import opened Wrappers
  import opened Text

  /** The gateway's invocation event. A None field is a key absent from the event (or, for
      the query parameters and headers, a null value); the handler then uses a default. The
      query parameters keep the order in which the event lists them. */
  datatype Event = Event(
    httpMethod: Option<string>,
    path: Option<string>,
    queryStringParameters: Option<seq<(string, string)>>,
    headers: Option<map<string, string>>,
    body: BodyField)

  /** The event's `body` key: missing, present with null, or present with text. */
  datatype BodyField = Absent | Null | Present(text: string)

  /** The request sent to the backend. `body` is None when no body is attached. */
  datatype OutboundRequest = OutboundRequest(
    httpMethod: string,
    url: string,
    headers: map<string, string>,
    body: Option<string>,
    timeoutSeconds: nat)

  /** The gateway's routing prefix, removed by a fixed-length cut. */
  const ApiPrefix: string := "/api"
  const RequestTimeoutSeconds: nat := 30
  const DefaultContentType: string := "application/json"
  const DefaultUserAgent: string := "API-Gateway-Proxy"

  /** The only inbound headers that can reach the backend. */
  const ForwardedHeaders: set<string> := {"Content-Type", "User-Agent", "Authorization"}

  /** The event's fields with the handler's defaults applied. */
  function MethodOf(e: Event): string { e.httpMethod.GetOr("GET") }
  function PathOf(e: Event): string { e.path.GetOr("") }
  function QueryOf(e: Event): seq<(string, string)> { e.queryStringParameters.GetOr([]) }
  function HeadersOf(e: Event): map<string, string> { e.headers.GetOr(map[]) }
  /** `event.get('body', '')`: None stands for Python's None, which sends no body. */
  function BodyOf(e: Event): Option<string> {
    match e.body
    case Absent => Some("")
    case Null => None
    case Present(text) => Some(text)
  }

  /** `m.get(k, d)` on an exact-key map. */
  function Lookup(m: map<string, string>, k: string, d: string): string {
    if k in m then m[k] else d
  }

  /** The path sent to the backend. A path starting with "/api" (so also one starting with
      "/api/") loses exactly its first four characters, whatever follows them; any other
      path is forwarded unchanged. */
  function BackendPath(path: string): (p: string)
    ensures StartsWith(path, ApiPrefix) ==> ApiPrefix + p == path
    ensures !StartsWith(path, ApiPrefix) ==> p == path
  {
    if StartsWith(path, "/api/") then path[4..]
    else if StartsWith(path, "/api") then path[4..]
    else path
  }

  /** Under "/api/" the rewritten path keeps its leading slash. */
  lemma BackendPathKeepsSlash(rest: string)
    ensures BackendPath("/api/" + rest) == "/" + rest
  {
  }

  /** The cut is not segment-aware: "/apiary" is forwarded as "ary", with no leading slash. */
  lemma BackendPathIsFixedOffset()
    ensures BackendPath("/apiary") == "ary"
    ensures BackendPath("/api") == ""
    ensures BackendPath("/ap") == "/ap"
  {
  }

  /** The `k=v` piece of one query parameter. */
  function PairText(kv: (string, string)): string {
    kv.0 + "=" + kv.1
  }

  /** `'&'.join(f"{k}={v}" ...)` over the parameters in order, with no percent-encoding.
      The string is empty exactly when there are no parameters. */
  function QueryString(params: seq<(string, string)>): (q: string)
    ensures q == "" <==> params == []
  {
    var pieces := seq(|params|, i requires 0 <= i < |params| => PairText(params[i]));
    assert params != [] ==> |PairText(params[0])| > 0 && Join(pieces, '&')[..|pieces[0]|] == pieces[0];
    Join(pieces, '&')
  }

  /** A reader of query strings: split at every '&', then each piece at its first '='
      (a piece without '=' is a key with an empty value). No percent-decoding. */
  function ParseQuery(q: string): (params: seq<(string, string)>)
  {
    var pieces := Split(q, '&');
    seq(|pieces|, i requires 0 <= i < |pieces| => ParsePair(pieces[i]))
  }

  function ParsePair(piece: string): (string, string) {
    var (k, v) := Partition(piece, '=');
    (k, v.GetOr(""))
  }

  /** Parameters a reader can recover from the unencoded query string: no key holds
      '&' or '=', no value holds '&'. */
  predicate Unambiguous(params: seq<(string, string)>) {
    forall i :: 0 <= i < |params| ==>
      '&' !in params[i].0 && '=' !in params[i].0 && '&' !in params[i].1
  }

  /** For unambiguous parameters, reading the query string gives back exactly the
      parameters, in order. */
  lemma QueryRoundTrip(params: seq<(string, string)>)
    requires params != [] && Unambiguous(params)
    ensures ParseQuery(QueryString(params)) == params
  {
    var pieces := seq(|params|, i requires 0 <= i < |params| => PairText(params[i]));
    assert forall i :: 0 <= i < |pieces| ==> '&' !in pieces[i];
    SplitJoin(pieces, '&');
    var parsed := ParseQuery(QueryString(params));
    assert |parsed| == |params|;
    forall i | 0 <= i < |params|
      ensures parsed[i] == params[i]
    {
      PartitionUnique(params[i].0, '=', params[i].1);
      assert PairText(params[i]) == params[i].0 + ['='] + params[i].1;
    }
  }

  /** Without encoding, an '&' inside a value is read as a parameter separator: one
      parameter is sent, two are received. */
  lemma QueryValueWithAmpersandSplits()
    ensures QueryString([("q", "a&b=c")]) == "q=a&b=c"
    ensures ParseQuery(QueryString([("q", "a&b=c")])) == [("q", "a"), ("b", "c")]
  {
    var q := QueryString([("q", "a&b=c")]);
    assert q == "q=a&b=c";
    SplitAfterPiece("q=a", '&', "b=c");
    SplitNoSep("b=c", '&');
    assert "q=a" + ['&'] + "b=c" == q;
    PartitionUnique("q", '=', "a");
    assert "q" + ['='] + "a" == "q=a";
    PartitionUnique("b", '=', "c");
    assert "b" + ['='] + "c" == "b=c";
  }

  /** Characters with a meaning in URLs are copied verbatim too: `#`, `+` and `%` in a value
      go out unescaped, so the URL ends with a fragment, a `+` that decoders read as a space,
      or a broken escape. */
  lemma QueryValueIsNotEscaped()
    ensures TargetUrl("h", "/p", [("q", "a#b")]) == "http://h/p?q=a#b"
    ensures QueryString([("q", "a+b")]) == "q=a+b"
    ensures QueryString([("q", "100%")]) == "q=100%"
  {
    assert QueryString([("q", "a#b")]) == "q=a#b";
  }

  /** `f"http://{host}{path}"`, followed by "?" and the query string when there are
      parameters. */
  function TargetUrl(host: string, backendPath: string, params: seq<(string, string)>): (url: string)
    ensures StartsWith(url, "http://" + host + backendPath)
  {
    var base := "http://" + host + backendPath;
    if params != [] then
      assert (base + "?" + QueryString(params))[..|base|] == base;
      base + "?" + QueryString(params)
    else base
  }

  /** A reader that cuts the URL at its first '?' finds the scheme, host and path before it,
      and the query string after it exactly when there are parameters; together with
      QueryRoundTrip, a reader that cuts there, splits at '&' and at the first '=', and does
      no decoding recovers the parameters that were sent. */
  lemma TargetUrlParts(host: string, backendPath: string, params: seq<(string, string)>)
    requires '?' !in host && '?' !in backendPath
    ensures Partition(TargetUrl(host, backendPath, params), '?') ==
      ("http://" + host + backendPath, if params == [] then None else Some(QueryString(params)))
  {
    var base := "http://" + host + backendPath;
    assert '?' !in base by {
      assert forall i :: 0 <= i < |base| ==> base[i] != '?' by {
        forall i | 0 <= i < |base| ensures base[i] != '?' {
          if i >= 7 + |host| {
            assert base[i] == backendPath[i - 7 - |host|];
          } else if i >= 7 {
            assert base[i] == host[i - 7];
          }
        }
      }
    }
    if params != [] {
      PartitionUnique(base, '?', QueryString(params));
      assert base + "?" + QueryString(params) == base + ['?'] + QueryString(params);
    }
  }

  /** The three outbound headers: Content-Type and User-Agent always, inbound value else the
      default; Authorization exactly when the event has it, with the same value. */
  function OutboundHeaders(inbound: map<string, string>): (h: map<string, string>)
    ensures h.Keys == {"Content-Type", "User-Agent"} + (if "Authorization" in inbound then {"Authorization"} else {})
    ensures h["Content-Type"] == (if "Content-Type" in inbound then inbound["Content-Type"] else DefaultContentType)
    ensures h["User-Agent"] == (if "User-Agent" in inbound then inbound["User-Agent"] else DefaultUserAgent)
    ensures "Authorization" in h <==> "Authorization" in inbound
    ensures "Authorization" in h ==> h["Authorization"] == inbound["Authorization"]
  {
    var target := map[
      "Content-Type" := Lookup(inbound, "Content-Type", DefaultContentType),
      "User-Agent" := Lookup(inbound, "User-Agent", DefaultUserAgent)];
    if "Authorization" in inbound then target["Authorization" := inbound["Authorization"]]
    else target
  }

  /** Inbound header names are matched exactly: a lower-case `content-type` is not seen, so
      the default is sent, and a lower-case `authorization` is dropped. */
  lemma InboundHeaderKeysAreCaseSensitive()
    ensures OutboundHeaders(map["content-type" := "text/plain", "authorization" := "Bearer t"])
      == map["Content-Type" := DefaultContentType, "User-Agent" := DefaultUserAgent]
  {
  }

  /** Only the three forwarded headers can reach the backend, and changing, adding or
      removing any other inbound header changes nothing outbound. */
  lemma OutboundHeadersIgnoreOthers(inbound: map<string, string>, other: string, v: string)
    requires other !in ForwardedHeaders
    ensures OutboundHeaders(inbound).Keys <= ForwardedHeaders
    ensures OutboundHeaders(inbound[other := v]) == OutboundHeaders(inbound)
    ensures OutboundHeaders(inbound - {other}) == OutboundHeaders(inbound)
  {
  }

  /** GET and DELETE go without a body, whatever the event holds; every other method
      (compared case-sensitively) carries the inbound body unchanged. */
  function OutboundBody(httpMethod: string, body: Option<string>): (b: Option<string>)
    ensures httpMethod == "GET" || httpMethod == "DELETE" ==> b.None?
    ensures httpMethod != "GET" && httpMethod != "DELETE" ==> b == body
  {
    if httpMethod in ["GET", "DELETE"] then None else body
  }

  /** The method test is case-sensitive: "get" and "Delete" are not among the body-less
      methods, so they carry the inbound body. */
  lemma MethodTestIsCaseSensitive(body: Option<string>)
    ensures OutboundBody("get", body) == body
    ensures OutboundBody("Delete", body) == body
    ensures OutboundBody("GET", body).None?
  {
  }

  /** The request the handler sends for event `e` to a configured backend `host`. */
  function BuildRequest(host: string, e: Event): (r: OutboundRequest)
    ensures r.httpMethod == MethodOf(e)
    ensures r.url == TargetUrl(host, BackendPath(PathOf(e)), QueryOf(e))
    ensures r.headers == OutboundHeaders(HeadersOf(e))
    ensures r.headers.Keys <= ForwardedHeaders
    ensures r.httpMethod == "GET" || r.httpMethod == "DELETE" ==> r.body.None?
    ensures r.httpMethod != "GET" && r.httpMethod != "DELETE" ==> r.body == BodyOf(e)
    ensures r.timeoutSeconds == RequestTimeoutSeconds
  {
    var m := MethodOf(e);
    OutboundRequest(
      m,
      TargetUrl(host, BackendPath(PathOf(e)), QueryOf(e)),
      OutboundHeaders(HeadersOf(e)),
      OutboundBody(m, BodyOf(e)),
      RequestTimeoutSeconds)
  }

  /** The example of a GET under /api with one query parameter. */
  lemma BuildRequestExample()
    ensures BuildRequest("backend.local", Event(Some("GET"), Some("/api/users"), Some([("id", "5")]), None, Null))
      == OutboundRequest(
           "GET", "http://backend.local/users?id=5",
           map["Content-Type" := "application/json", "User-Agent" := "API-Gateway-Proxy"],
           None, 30)
  {
    var e := Event(Some("GET"), Some("/api/users"), Some([("id", "5")]), None, Null);
    BackendPathKeepsSlash("users");
    assert "/api/" + "users" == "/api/users";
    assert BackendPath(PathOf(e)) == "/users";
    assert QueryString(QueryOf(e)) == "id=5";
    assert TargetUrl("backend.local", "/users", [("id", "5")]) == "http://backend.local/users?id=5";
    assert OutboundHeaders(HeadersOf(e)) == map["Content-Type" := "application/json", "User-Agent" := "API-Gateway-Proxy"];
  }
}

=== FILE: response.dfy ===
/** The outbound half of the proxy: from the outcome of the backend call to the response
    envelope the gateway expects. */
module ProxyResponse {

  import opened Wrappers
  import opened Text
  import Base64

  /** What the one backend call produced. `Ok` carries the status, the response headers with
      their keys spelt as the backend sent them, and the raw body; `Timeout` is the client's
      timeout error; `Failed` is any other error, with its text. */
  datatype BackendOutcome =
    | Ok(status: int, headers: map<string, string>, data: seq<Base64.byte>)
    | Timeout
    | Failed(message: string)

  /** The response body: the backend's bytes as they are, their base 64 text, or the
      JSON object `{"error": ...}` of an error envelope. */
  datatype Body = Raw(bytes: seq<Base64.byte>) | Encoded(text: string) | ErrorJson(error: string)

  /** The gateway's response envelope. Error envelopes have no `isBase64Encoded` key. */
  datatype Response = Response(
    statusCode: int,
    headers: map<string, string>,
    body: Body,
    isBase64Encoded: Option<bool>)

  const JsonContentType: string := "application/json"
  const AllowHeaders: string := "Content-Type,X-Amz-Date,Authorization,X-Api-Key,X-Amz-Security-Token"
  const AllowMethods: string := "GET,POST,PUT,DELETE,OPTIONS"

  /** The permissive CORS entries every response carries. */
  const CorsHeaders: map<string, string> := map[
    "Access-Control-Allow-Origin" := "*",
    "Access-Control-Allow-Headers" := AllowHeaders,
    "Access-Control-Allow-Methods" := AllowMethods]

  /** Content-type fragments that mark a body as binary. */
  const BinaryMarkers: seq<string> := ["image/", "application/pdf", "application/octet-stream"]

  const ConfigErrorMessage: string := "ALB_DNS_NAME not configured"
  const TimeoutMessage: string := "Request timeout"
  const InternalErrorPrefix: string := "Internal server error: "

  /** Every CORS entry is present with its fixed value. */
  predicate HasCors(h: map<string, string>) {
    forall k :: k in CorsHeaders ==> k in h && h[k] == CorsHeaders[k]
  }

  /** An error envelope: the fixed CORS/JSON header set and `{"error": message}`. */
  function ErrorResponse(status: int, message: string): (r: Response)
    ensures r.statusCode == status && r.body == ErrorJson(message)
    ensures HasCors(r.headers) && r.headers.Keys == CorsHeaders.Keys + {"Content-Type"}
    ensures r.headers["Content-Type"] == JsonContentType
    ensures r.isBase64Encoded.None?
  {
    Response(status, CorsHeaders["Content-Type" := JsonContentType], ErrorJson(message), None)
  }

  /** Headers for a backend success: the CORS entries, Content-Type from the backend's
      `content-type` (else JSON), and Content-Length exactly when the backend sent
      `content-length`. Nothing else the backend sent is passed on. */
  function GatewayHeaders(backend: map<string, string>): (h: map<string, string>)
    ensures HasCors(h)
    ensures h.Keys == CorsHeaders.Keys + {"Content-Type"} + (if "content-length" in backend then {"Content-Length"} else {})
    ensures h["Content-Type"] == (if "content-type" in backend then backend["content-type"] else JsonContentType)
    ensures "Content-Length" in h <==> "content-length" in backend
    ensures "Content-Length" in h ==> h["Content-Length"] == backend["content-length"]
  {
    var contentType := if "content-type" in backend then backend["content-type"] else JsonContentType;
    var gateway := CorsHeaders["Content-Type" := contentType];
    if "content-length" in backend then gateway["Content-Length" := backend["content-length"]]
    else gateway
  }

  /** The backend's content type as the binary test reads it: `content-type`, else empty. */
  function ContentTypeOf(backend: map<string, string>): string {
    if "content-type" in backend then backend["content-type"] else ""
  }

  /** Binary when one of the markers occurs, in any letter case, anywhere in the content type. */
  function IsBinaryContentType(contentType: string): (b: bool)
    ensures b <==> exists m, i :: m in BinaryMarkers && OccursAt(Lower(contentType), m, i)
  {
    var lowered := Lower(contentType);
    Contains(lowered, "image/") || Contains(lowered, "application/pdf") || Contains(lowered, "application/octet-stream")
  }

  /** The marker test with Python's full Unicode lowering gives the same answer as with the
      ASCII lowering the model uses: the only non-ASCII characters whose lower case holds
      ASCII give "k" (in no marker) or "i" followed by U+0307 (no marker ends in "i"). */
  lemma BinaryTestUnderUnicodeLower(f: char -> string, contentType: string)
    requires UnicodeLowerShape(f)
    ensures IsBinaryContentType(contentType) <==>
      (|| Contains(LowerBy(f, contentType), "image/")
       || Contains(LowerBy(f, contentType), "application/pdf")
       || Contains(LowerBy(f, contentType), "application/octet-stream"))
  {
    assert LowerStable("image/");
    assert LowerStable("application/pdf");
    assert LowerStable("application/octet-stream");
    ContainsUnicodeLower(f, "image/", contentType);
    ContainsUnicodeLower(f, "application/pdf", contentType);
    ContainsUnicodeLower(f, "application/octet-stream", contentType);
  }

  /** A marker anywhere in the content type, in lower or in upper case, makes it binary. */
  lemma MarkerMakesBinary(before: string, m: string, after: string)
    requires m in BinaryMarkers
    ensures IsBinaryContentType(before + m + after)
    ensures IsBinaryContentType(before + Upper(m) + after)
  {
    assert IsLowerCase(m);
    LowerOfUpper(m);
    LowerAppend(before, m);
    LowerAppend(before + m, after);
    LowerAppend(before, Upper(m));
    LowerAppend(before + Upper(m), after);
    assert Lower(m) == m by {
      assert forall i :: 0 <= i < |m| ==> Lower(m)[i] == m[i];
    }
    var l := Lower(before) + m + Lower(after);
    assert l[|before|..|before| + |m|] == m;
    assert OccursAt(l, m, |before|);
  }

  const JsonText: string := "application/json"

  /** The JSON content type is already lower case. */
  lemma JsonIsLowerCase()
    ensures Lower(JsonText) == JsonText
  {
    assert forall i :: 0 <= i < |JsonText| ==> Lower(JsonText)[i] == JsonText[i];
  }

  /** "image/" does not occur in the JSON content type: its only '/' is at position 11. */
  lemma NoImageInJson()
    ensures forall i :: !OccursAt(JsonText, "image/", i)
  {
    var ct := JsonText;
    assert forall j :: 0 <= j < |ct| && ct[j] == '/' ==> j == 11;
    forall i | 0 <= i && i + 6 <= |ct|
      ensures !OccursAt(ct, "image/", i)
    {
      if i == 6 {
        assert ct[i..i + 6][0] == 'a';
      } else {
        assert ct[i..i + 6][5] == ct[i + 5] != '/';
      }
    }
  }

  /** "application/pdf" does not occur in the JSON content type. */
  lemma NoPdfInJson()
    ensures forall i :: !OccursAt(JsonText, "application/pdf", i)
  {
    var ct := JsonText;
    forall i | 0 <= i && i + 15 <= |ct|
      ensures !OccursAt(ct, "application/pdf", i)
    {
      if i == 0 {
        assert ct[i..i + 15][12] == 'j';
      } else {
        assert ct[i..i + 15][11] == 'j';
      }
    }
  }

  /** A JSON content type is passed through as text. */
  lemma JsonIsNotBinary()
    ensures !IsBinaryContentType("application/json")
  {
    JsonIsLowerCase();
    NoImageInJson();
    NoPdfInJson();
  }

  /** The body and flag agree: the flag is true exactly when the body is base 64 text, that
      text decodes to the backend's bytes, and a body that is not encoded is those bytes. */
  predicate BodyCarries(r: Response, data: seq<Base64.byte>) {
    && r.isBase64Encoded.Some?
    && (r.isBase64Encoded.value <==> r.body.Encoded?)
    && (r.body.Encoded? ==> Base64.Decode(r.body.text) == Some(data))
    && (r.body.Raw? ==> r.body.bytes == data)
    && !r.body.ErrorJson?
  }

  /** The response for a backend reply: its status unchanged, the gateway headers, and the
      body base 64 encoded exactly when the content type is binary. */
  function SuccessResponse(status: int, headers: map<string, string>, data: seq<Base64.byte>): (r: Response)
    ensures r.statusCode == status
    ensures r.headers == GatewayHeaders(headers)
    ensures r.isBase64Encoded == Some(IsBinaryContentType(ContentTypeOf(headers)))
    ensures BodyCarries(r, data)
  {
    if IsBinaryContentType(ContentTypeOf(headers)) then
      Base64.DecodeEncode(data);
      Response(status, GatewayHeaders(headers), Encoded(Base64.Encode(data)), Some(true))
    else
      Response(status, GatewayHeaders(headers), Raw(data), Some(false))
  }

  /** Backend header keys are matched exactly: a backend that spells the key `Content-Type`
      gets the JSON default and its image is passed through unencoded. */
  lemma BackendHeaderKeysAreCaseSensitive(data: seq<Base64.byte>)
    ensures SuccessResponse(200, map["Content-Type" := "image/png"], data).headers["Content-Type"] == JsonContentType
    ensures SuccessResponse(200, map["Content-Type" := "image/png"], data).isBase64Encoded == Some(false)
    ensures SuccessResponse(200, map["content-type" := "image/png"], data).isBase64Encoded == Some(true)
  {
  }

  /** The response for any outcome of the backend call. */
  function OutcomeResponse(outcome: BackendOutcome): (r: Response)
    ensures outcome.Ok? ==> r.statusCode == outcome.status && BodyCarries(r, outcome.data)
    ensures outcome.Ok? ==> r.headers == GatewayHeaders(outcome.headers)
    ensures outcome.Ok? ==> r == SuccessResponse(outcome.status, outcome.headers, outcome.data)
    ensures outcome.Timeout? ==> r == ErrorResponse(504, TimeoutMessage)
    ensures outcome.Failed? ==> r == ErrorResponse(500, InternalErrorPrefix + outcome.message)
  {
    match outcome
    case Ok(status, headers, data) => SuccessResponse(status, headers, data)
    case Timeout => ErrorResponse(504, TimeoutMessage)
    case Failed(message) => ErrorResponse(500, InternalErrorPrefix + message)
  }
}

=== FILE: text.dfy ===
/** String helpers the proxy relies on: prefix test, ASCII lowercasing, substring search,
    and joining / splitting on a separator character. Strings are `seq<char>`. */
module Text {

  import opened Wrappers

  /** Python's `s.startswith(p)`. */
  predicate StartsWith(s: string, p: string) {
    |p| <= |s| && s[..|p|] == p
  }

  /** True when `t` occurs in `s` starting at position `i`. */
  predicate OccursAt(s: string, t: string, i: int) {
    0 <= i && i + |t| <= |s| && s[i..i + |t|] == t
  }

  /** Python's `t in s` for strings, searched left to right. */
  function Contains(s: string, t: string): (b: bool)
    ensures b <==> exists i :: OccursAt(s, t, i)
    decreases |s|
  {
    if StartsWith(s, t) then
      assert OccursAt(s, t, 0);
      true
    else if |s| == 0 then
      assert forall i :: !OccursAt(s, t, i);
      false
    else
      var b := Contains(s[1..], t);
      assert forall i :: OccursAt(s[1..], t, i) <==> OccursAt(s, t, i + 1) by {
        forall i ensures OccursAt(s[1..], t, i) <==> OccursAt(s, t, i + 1) {
          if 0 <= i && i + |t| <= |s| - 1 {
            assert s[1..][i..i + |t|] == s[i + 1..i + 1 + |t|];
          }
        }
      }
      if b then
        var i :| OccursAt(s[1..], t, i);
        assert OccursAt(s, t, i + 1);
        b
      else
        assert !OccursAt(s, t, 0);
        assert forall i :: !OccursAt(s, t, i) by {
          forall i ensures !OccursAt(s, t, i) {
            if i > 0 { assert !OccursAt(s[1..], t, i - 1); }
          }
        }
        b
  }

  /** ASCII lowercasing of one character; every other character is kept. */
  function LowerChar(c: char): char {
    if 'A' <= c <= 'Z' then (c as int + 32) as char else c
  }

  /** ASCII uppercasing of one character; every other character is kept. */
  function UpperChar(c: char): char {
    if 'a' <= c <= 'z' then (c as int - 32) as char else c
  }

  /** `s.lower()` restricted to ASCII letters. */
  function Lower(s: string): (t: string)
    ensures |t| == |s|
    ensures forall i :: 0 <= i < |s| ==> t[i] == LowerChar(s[i])
  {
    seq(|s|, i requires 0 <= i < |s| => LowerChar(s[i]))
  }

  /** `s.upper()` restricted to ASCII letters. */
  function Upper(s: string): (t: string)
    ensures |t| == |s|
    ensures forall i :: 0 <= i < |s| ==> t[i] == UpperChar(s[i])
  {
    seq(|s|, i requires 0 <= i < |s| => UpperChar(s[i]))
  }

  /** No ASCII upper-case letter occurs in `s`. */
  predicate IsLowerCase(s: string) {
    forall i :: 0 <= i < |s| ==> !('A' <= s[i] <= 'Z')
  }

  /** Lowercasing distributes over concatenation. */
  lemma LowerAppend(a: string, b: string)
    ensures Lower(a + b) == Lower(a) + Lower(b)
  {
  }

  /** Lowercasing undoes uppercasing on a string with no upper-case letter. */
  lemma LowerOfUpper(s: string)
    requires IsLowerCase(s)
    ensures Lower(Upper(s)) == s
  {
  }

  /** Lowercasing through a per-character table that may turn one character into several,
      as Python's Unicode `str.lower()` does. */
  function LowerBy(f: char -> string, s: string): string
    decreases |s|
  {
    if |s| == 0 then "" else f(s[0]) + LowerBy(f, s[1..])
  }

  /** What the Unicode lowering table does as far as ASCII is concerned: ASCII characters are
      lowercased as `LowerChar` does, every character yields at least one character, and the
      only other characters whose lower case holds ASCII are U+0130 (to "i" and U+0307) and
      the Kelvin sign U+212A (to "k"). */
  predicate UnicodeLowerShape(f: char -> string) {
    && (forall c :: c < '\U{80}' ==> f(c) == [LowerChar(c)])
    && (forall c :: |f(c)| >= 1)
    && f('\U{130}') == "i\U{307}"
    && f('\U{212A}') == "k"
    && (forall c, j :: '\U{80}' <= c && c != '\U{130}' && c != '\U{212A}' && 0 <= j < |f(c)| ==> '\U{80}' <= f(c)[j])
  }

  /** A pattern those two exceptions cannot reach: non-empty ASCII, with no "k" and not
      ending in "i". */
  predicate LowerStable(m: string) {
    && |m| > 0
    && m[|m| - 1] != 'i'
    && (forall j :: 0 <= j < |m| ==> m[j] < '\U{80}' && m[j] != 'k')
  }

  /** Table lowering distributes over concatenation. */
  lemma {:induction false} LowerByAppend(f: char -> string, a: string, b: string)
    ensures LowerBy(f, a + b) == LowerBy(f, a) + LowerBy(f, b)
    decreases |a|
  {
    if |a| == 0 {
      assert a + b == b;
    } else {
      assert (a + b)[0] == a[0];
      assert (a + b)[1..] == a[1..] + b;
      LowerByAppend(f, a[1..], b);
      calc {
        LowerBy(f, a + b);
        f(a[0]) + LowerBy(f, a[1..] + b);
        f(a[0]) + (LowerBy(f, a[1..]) + LowerBy(f, b));
        (f(a[0]) + LowerBy(f, a[1..])) + LowerBy(f, b);
      }
    }
  }

  /** On ASCII text the table and ASCII lowercasing agree. */
  lemma {:induction false} LowerByAscii(f: char -> string, t: string)
    requires UnicodeLowerShape(f)
    requires forall j :: 0 <= j < |t| ==> t[j] < '\U{80}'
    ensures LowerBy(f, t) == Lower(t)
    decreases |t|
  {
    if |t| > 0 {
      LowerByAscii(f, t[1..]);
      assert Lower(t) == [LowerChar(t[0])] + Lower(t[1..]);
    }
  }

  /** Only an ASCII character's lower case can begin a stable pattern. */
  lemma ExpansionStart(f: char -> string, c: char, m: string, rest: string)
    requires UnicodeLowerShape(f) && LowerStable(m)
    ensures StartsWith(f(c) + rest, m) ==> c < '\U{80}'
  {
    var x := f(c) + rest;
    if '\U{80}' <= c && |m| <= |x| {
      if c == '\U{130}' {
        if |m| == 1 {
          assert x[0] == 'i' != m[0];
        } else {
          assert x[1] == '\U{307}' != m[1];
        }
        assert x[..|m|] != m;
      } else if c == '\U{212A}' {
        assert x[0] == 'k' != m[0];
        assert x[..|m|][0] != m[0];
      } else {
        assert '\U{80}' <= f(c)[0] == x[0];
        assert x[..|m|][0] != m[0];
      }
    }
  }

  /** A stable pattern never begins inside the expansion of one character. */
  lemma ExpansionInner(f: char -> string, c: char, m: string, rest: string, p: int)
    requires UnicodeLowerShape(f) && LowerStable(m)
    ensures 0 < p < |f(c)| ==> !OccursAt(f(c) + rest, m, p)
  {
    var x := f(c) + rest;
    if 0 < p < |f(c)| && p + |m| <= |x| {
      if c == '\U{130}' {
        assert x[p] == '\U{307}';
      } else {
        assert '\U{80}' <= f(c)[p] == x[p];
      }
      assert x[p..p + |m|][0] != m[0];
    }
  }

  /** A stable pattern that starts the table-lowered text also starts the ASCII-lowered text. */
  lemma {:induction false} PrefixUnderLowerBy(f: char -> string, m: string, t: string)
    requires UnicodeLowerShape(f) && LowerStable(m)
    requires StartsWith(LowerBy(f, t), m)
    ensures StartsWith(Lower(t), m)
    decreases |t|
  {
    var c := t[0];
    var rest := LowerBy(f, t[1..]);
    assert LowerBy(f, t) == f(c) + rest;
    ExpansionStart(f, c, m, rest);
    assert c < '\U{80}';
    assert m[0] == LowerChar(c);
    assert Lower(t) == [LowerChar(c)] + Lower(t[1..]);
    if |m| > 1 {
      assert m[1..] == rest[..|m| - 1];
      PrefixUnderLowerBy(f, m[1..], t[1..]);
    }
  }

  /** A stable pattern found in the table-lowered text is found in the ASCII-lowered text. */
  lemma {:induction false} ContainsUnderLowerBy(f: char -> string, m: string, s: string)
    requires UnicodeLowerShape(f) && LowerStable(m)
    ensures Contains(LowerBy(f, s), m) ==> Contains(Lower(s), m)
    decreases |s|
  {
    if Contains(LowerBy(f, s), m) {
      var p :| OccursAt(LowerBy(f, s), m, p);
      var c := s[0];
      var rest := LowerBy(f, s[1..]);
      assert LowerBy(f, s) == f(c) + rest;
      ExpansionInner(f, c, m, rest, p);
      if p >= |f(c)| {
        var p' := p - |f(c)|;
        assert rest[p'..p' + |m|] == m;
        assert OccursAt(rest, m, p');
        assert Contains(rest, m);
        ContainsUnderLowerBy(f, m, s[1..]);
        var q :| OccursAt(Lower(s[1..]), m, q);
        assert Lower(s)[q + 1..q + 1 + |m|] == Lower(s[1..])[q..q + |m|];
        assert OccursAt(Lower(s), m, q + 1);
      } else {
        assert p == 0;
        PrefixUnderLowerBy(f, m, s);
        assert OccursAt(Lower(s), m, 0);
      }
    }
  }

  /** Where the ASCII-lowered text shows an ASCII character, the text had an ASCII character. */
  lemma AsciiUnderLower(s: string, p: int, m: string)
    requires OccursAt(Lower(s), m, p)
    requires forall j :: 0 <= j < |m| ==> m[j] < '\U{80}'
    ensures forall j :: p <= j < p + |m| ==> s[j] < '\U{80}'
  {
    forall j | p <= j < p + |m|
      ensures s[j] < '\U{80}'
    {
      assert Lower(s)[p..p + |m|][j - p] == m[j - p];
    }
  }

  /** A pattern that is the table lowering of a middle piece occurs after the lowering of
      what precedes it. */
  lemma LowerByMiddle(f: char -> string, a: string, mid: string, b: string, m: string)
    requires LowerBy(f, mid) == m
    ensures OccursAt(LowerBy(f, a + mid + b), m, |LowerBy(f, a)|)
  {
    LowerByAppend(f, a + mid, b);
    LowerByAppend(f, a, mid);
    var k := |LowerBy(f, a)|;
    assert LowerBy(f, a + mid + b) == LowerBy(f, a) + m + LowerBy(f, b);
    assert (LowerBy(f, a) + m + LowerBy(f, b))[k..k + |m|] == m;
  }

  /** An ASCII match at position `p` of the ASCII-lowered text reappears in the table-lowered
      text, after the lowering of the text before `p`. */
  lemma AsciiMatchAt(f: char -> string, m: string, s: string, p: int)
    requires UnicodeLowerShape(f) && LowerStable(m)
    requires OccursAt(Lower(s), m, p)
    ensures OccursAt(LowerBy(f, s), m, |LowerBy(f, s[..p])|)
  {
    var a, mid, b := s[..p], s[p..p + |m|], s[p + |m|..];
    AsciiUnderLower(s, p, m);
    LowerByAscii(f, mid);
    assert Lower(mid) == Lower(s)[p..p + |m|];
    assert s == a + mid + b;
    LowerByMiddle(f, a, mid, b, m);
  }

  /** An ASCII pattern found in the ASCII-lowered text is found in the table-lowered text. */
  lemma LowerByKeepsAsciiMatch(f: char -> string, m: string, s: string)
    requires UnicodeLowerShape(f) && LowerStable(m)
    ensures Contains(Lower(s), m) ==> Contains(LowerBy(f, s), m)
  {
    if Contains(Lower(s), m) {
      var p :| OccursAt(Lower(s), m, p);
      AsciiMatchAt(f, m, s, p);
    }
  }

  /** For a stable pattern, searching the Unicode-lowered text and searching the
      ASCII-lowered text give the same answer. */
  lemma ContainsUnicodeLower(f: char -> string, m: string, s: string)
    requires UnicodeLowerShape(f) && LowerStable(m)
    ensures Contains(LowerBy(f, s), m) <==> Contains(Lower(s), m)
  {
    ContainsUnderLowerBy(f, m, s);
    LowerByKeepsAsciiMatch(f, m, s);
  }

  /** `sep.join(parts)`. */
  function Join(parts: seq<string>, sep: char): string
  {
    if |parts| == 0 then ""
    else if |parts| == 1 then parts[0]
    else parts[0] + [sep] + Join(parts[1..], sep)
  }

  /** `s.split(sep)`: the pieces between occurrences of `sep`, at least one. */
  function Split(s: string, sep: char): (parts: seq<string>)
    ensures |parts| >= 1
    decreases |s|
  {
    if |s| == 0 then [""]
    else if s[0] == sep then [""] + Split(s[1..], sep)
    else
      var rest := Split(s[1..], sep);
      [[s[0]] + rest[0]] + rest[1..]
  }

  /** Splitting a string that holds no separator gives that string alone. */
  lemma {:induction false} SplitNoSep(s: string, sep: char)
    requires sep !in s
    ensures Split(s, sep) == [s]
    decreases |s|
  {
    if |s| > 0 {
      SplitNoSep(s[1..], sep);
      assert [s[0]] + s[1..] == s;
    }
  }

  /** Splitting `a + [sep] + b` cuts exactly at the separator after `a`. */
  lemma {:induction false} SplitAfterPiece(a: string, sep: char, b: string)
    requires sep !in a
    ensures Split(a + [sep] + b, sep) == [a] + Split(b, sep)
    decreases |a|
  {
    if |a| == 0 {
      assert a + [sep] + b == [sep] + b;
      assert ([sep] + b)[1..] == b;
    } else {
      assert (a + [sep] + b)[1..] == a[1..] + [sep] + b;
      SplitAfterPiece(a[1..], sep, b);
      assert [a[0]] + a[1..] == a;
    }
  }

  /** Splitting undoes joining, provided no piece holds the separator. */
  lemma {:induction false} SplitJoin(parts: seq<string>, sep: char)
    requires |parts| >= 1
    requires forall i :: 0 <= i < |parts| ==> sep !in parts[i]
    ensures Split(Join(parts, sep), sep) == parts
    decreases |parts|
  {
    if |parts| == 1 {
      SplitNoSep(parts[0], sep);
    } else {
      SplitAfterPiece(parts[0], sep, Join(parts[1..], sep));
      SplitJoin(parts[1..], sep);
      assert [parts[0]] + parts[1..] == parts;
    }
  }

  /** The text before the first `sep` and, when there is one, the text after it. */
  function Partition(s: string, sep: char): (r: (string, Option<string>))
    ensures r.1.None? ==> r.0 == s && sep !in s
    ensures r.1.Some? ==> s == r.0 + [sep] + r.1.value && sep !in r.0
    decreases |s|
  {
    if |s| == 0 then ("", None)
    else if s[0] == sep then ("", Some(s[1..]))
    else
      var (before, after) := Partition(s[1..], sep);
      ([s[0]] + before, after)
  }

  /** Partition cuts at the first separator: a separator-free piece before it comes back whole. */
  lemma {:induction false} PartitionUnique(a: string, sep: char, b: string)
    requires sep !in a
    ensures Partition(a + [sep] + b, sep) == (a, Some(b))
    decreases |a|
  {
    var s := a + [sep] + b;
    if |a| == 0 {
      assert s == [sep] + b;
      assert s[1..] == b;
    } else {
      assert s[0] == a[0];
      assert s[1..] == a[1..] + [sep] + b;
      PartitionUnique(a[1..], sep, b);
      assert [a[0]] + a[1..] == a;
    }
  }
}

=== FILE: wrappers.dfy ===
/** Optional values, used for the absent fields of the invocation event and the unset
    configuration value. */
module Wrappers {

  datatype Option<+T> = None | Some(value: T) {

    /** Returns the value held in Some, or `default` when None. */
    function GetOr(default: T): T {
      match this
      case Some(v) => v
      case None => default
    }
  }
}
